=== FILE: README.md ===
# LLM quiz solver — a Dafny model of its decision logic

The quiz solver is a small Flask service. A client POSTs `{email, secret, url}`
to `/quiz`. The server checks the secret and keeps a per-email session table
with a three-minute limit. It then renders the quiz page, pulls a question and
a submit URL out of it, and routes the question by keyword to a handler. The
handlers ask a language model (OpenAI or Anthropic) for an answer. Finally the
answer is posted to a fixed submit endpoint.

The model covers the decisions in that pipeline. The browser, the HTTP calls,
the file parsers and the language-model APIs are left as parameters that may
fail.

- `wrappers.dfy`: `Option` (Python `None` versus a value) and `Call` (a call
  outside the model that returns or raises with a message).
- `text.dfy`: the Python string built-ins the code relies on. These are
  `str.isspace`, `strip`, `lower`, `split("\n")`, `in`, `startswith`,
  `endswith`, slicing, `int(s)` and `str(n)`, with round trips proved
  (`split`/`join` and `int(str(n)) == n`).
- `json_values.dfy`: JSON values as Python holds them, their truthiness, and
  `dict.get`.
- `llm_handler.dfy`: the class `LLMHandler`. Its constructor mirrors
  `__init__` step by step. Provider selection is proved equal to "first usable
  provider in the order OpenAI, Anthropic". `plan_solution`, `solve_generic`
  and `analyze_data` are functions of the handler's fields and of an `Env`.
  The `Env` gives the provider's reply or exception, `json.loads`, and whether
  `float()` accepts a text.
- `quiz_solver.dfy`: question extraction (a loop with early return, proved
  against a recursive specification), the two `https?://C` regular
  expressions and the file-link expression as explicit scanners, the keyword
  cascade, the handlers, `solve` and `submit_answer`. Rendering, downloads,
  API fetches and file parsers are the fields of a `World`.
- `server.dfy`: `verify_secret`, and the class `QuizServer`. The class holds
  the session table and updates it in place in `Quiz`. `Quiz` is proved equal
  to the reference function `HandleQuiz`, and the session rules are proved
  about `HandleQuiz`.

Where the documented behaviour of the system and its code disagree, the model
follows the code:

- Handlers can return `None` (`NoAnswer`). The file handler returns `None`
  when nothing matches or after a successful fetch. The API handler returns
  `None` when the question holds no URL.
- `https?://[^\s"]` captures one character after the scheme. So
  `extract_submit_url` never finds a URL, and `handle_api_call` fetches a
  one-character URL.
- `findall` with a capture group returns only the extension. So
  `handle_file_download` fetches `"pdf"` (or `"csv"`, …) and never reaches a
  file parser.
- The session table is keyed by the email value exactly as it arrives, which
  can be any JSON value. A list or object email raises Python's `TypeError`
  inside the handler, which becomes a 500 with the message
  `unhashable type: 'list'` (or `'dict'`). `true` and `false` fold onto the
  keys 1 and 0, as Python dictionary keys do.

## Model

| member | source | states |
|---|---|---|
| `Text.Strip` | llm_handler.py:107 | the result has no whitespace at either end, is no longer than the input, and leaves an already-stripped string unchanged |
| `Text.StripIsInfix` | llm_handler.py:107 | the result is a contiguous slice of the input, and everything cut off on either side is whitespace |
| `Text.AsciiSpace` | quiz_solver.py:61 | on ASCII, the whitespace of `str.strip` and of `\s` is space, tab through carriage return, and U+001C to U+001F |
| `Text.Prefix` | quiz_solver.py:57 | `text[:n]` has length min(len(text), n) and is a prefix of the text |
| `Text.ContainsIffOccurs` | quiz_solver.py:62 | `sub in s` holds exactly when `sub` occurs at some index of `s` |
| `Text.Lower` | quiz_solver.py:62 | same length, each character lowered on its own |
| `Text.SplitLines` | quiz_solver.py:53 | `split("\n")` gives at least one piece and no piece contains a newline |
| `Text.JoinSplitLines` | quiz_solver.py:53 | joining the pieces of `split("\n")` with newlines gives the text back |
| `Text.SplitJoinLines` | quiz_solver.py:53 | newline-free pieces, joined and split again, come back unchanged |
| `Text.BlockedNotContains` | quiz_solver.py:62 | a string whose every window of the keyword's width covers a character absent from the keyword does not contain it |
| `Text.ParseInt` | llm_handler.py:120 | `int(s)` succeeds exactly on an optionally signed digit string with single underscores between digits, ignoring surrounding `str.isspace` whitespace; a negative result comes from a leading `-` |
| `Text.DigitsOf` | llm_handler.py:120 | `str(n)` of a natural number is a non-empty digit string without a leading zero |
| `Text.DecimalString` | llm_handler.py:120 | `str(n)` is non-empty, starts with `-` iff `n` is negative, and is digits after the sign |
| `Text.DecimalRoundTrip` | llm_handler.py:120 | `int(str(n)) == n` for every integer |
| `JsonValues.FalsyValues` | main.py:36-55 | exactly `None`, `False`, `0`, `""`, `[]` and `{}` are falsy; every other value is truthy |
| `JsonValues.Get` | main.py:39 | `d.get(key)` is the stored value, or `None` when the key is absent |
| `LlmHandler.FirstUsable` | llm_handler.py:21-45 | the chosen provider has its key set and its client constructs; with none chosen, no provider in the list qualifies |
| `LlmHandler.ProviderSelection` | llm_handler.py:21-47 | OpenAI iff its key is set and its client constructs; Anthropic iff OpenAI is not usable and Anthropic is; no provider iff neither is usable |
| `LlmHandler.LLMHandler.constructor` | llm_handler.py:14-47 | keys and model read from the configuration (model defaults to `gpt-4-turbo`); the provider is the selected one; the client is set iff the provider is, for that provider and with its key |
| `LlmHandler.LLMHandler.ModelFor` | llm_handler.py:69-76 | OpenAI requests use the configured model; Anthropic requests always use `claude-3-5-sonnet-20241022` |
| `LlmHandler.LLMHandler.PlanSolution` | llm_handler.py:50-88 | no client gives `{'steps': ['Error: No LLM client']}`; under the handler invariant, a failed call gives `{'steps': ['Error in planning']}`, a reply that is not JSON gives `{'steps': ['Generic approach']}`, otherwise the parsed reply; the unknown-provider branch is reachable only when the invariant is broken |
| `LlmHandler.LLMHandler.SolveGeneric` | llm_handler.py:90-129 | never `None`; no client gives "Error: No LLM client"; under the handler invariant a failed call gives "Error", otherwise the stripped reply after the int-then-float coercion; "Unable to generate answer" needs a broken invariant, and is then kept as text whenever `float()` rejects it |
| `LlmHandler.LLMHandler.AnalyzeData` | llm_handler.py:131-161 | no client gives "Error: No LLM client"; under the handler invariant a failed call gives "Error", otherwise the stripped reply with no numeric coercion; "Unable to analyze" needs a broken invariant |
| `LlmHandler.LLMHandler.NoClientSentinels` | llm_handler.py:52-54 | with no client, all three operations return their sentinel whatever the provider would answer |
| `LlmHandler.Coerce` | llm_handler.py:118-125 | a text `int()` accepts becomes that integer; otherwise a text `float()` accepts becomes a float; otherwise the text is kept unchanged |
| `LlmHandler.IntBeforeFloat` | llm_handler.py:119-121 | the decimal rendering of any integer comes back as that integer, never as a float |
| `LlmHandler.CoerceKinds` | llm_handler.py:119-125 | the answer is an integer iff `int()` accepts the text, and is the text unchanged iff neither `int()` nor `float()` accepts it |
| `LlmHandler.ParseIntRejects` | llm_handler.py:120-121 | `int("42abc")` and `int("3.14")` raise |
| `LlmHandler.ParseIntBody` | llm_handler.py:120 | an unsigned digit body without surrounding space parses to its value |
| `LlmHandler.ParseIntSigned` | llm_handler.py:120 | a `+` before a digit body keeps its value and a `-` negates it (`"+5"` is 5, `"-05"` is -5, `"-1_0"` is -10) |
| `LlmHandler.UnableToAnswerNotInt` | llm_handler.py:116-121 | `int("Unable to generate answer")` raises |
| `LlmHandler.ParseIntAcceptsDigits` | llm_handler.py:120 | `int("42")` is 42 |
| `LlmHandler.ParseIntAcceptsUnderscore` | llm_handler.py:120 | `int("1_000")` is 1000 |
| `QuizSolver.QuestionOf` | quiz_solver.py:51-57 | the question starts with "Q" or is the 500-character prefix of the text (exactly characterised by `QuestionIsFirstMatchingLine` and `QuestionFallsBackToPrefix`) |
| `QuizSolver.ExtractQuestion` | quiz_solver.py:51-57 | the loop returns the extracted question of its reference definition |
| `QuizSolver.FirstQuestionLineAt` | quiz_solver.py:54-56 | the first qualifying line, stripped, is what the scan finds |
| `QuizSolver.FirstQuestionLineNone` | quiz_solver.py:54-57 | with no qualifying line, the scan finds nothing |
| `QuizSolver.QuestionIsFirstMatchingLine` | quiz_solver.py:53-56 | the question is the stripped first line that starts with "Q" after stripping and contains "."; no earlier line qualifies |
| `QuizSolver.QuestionFallsBackToPrefix` | quiz_solver.py:57 | with no qualifying line, the question is the prefix of the text of length min(len(text), 500) |
| `QuizSolver.SchemeMatchAt` | quiz_solver.py:61 | a match of `https?://C` is the scheme plus one character and occurs at the position tried; a scheme followed by a character of the class there always matches |
| `QuizSolver.FindAllSchemeChar` | quiz_solver.py:61 | every `findall` match is "http://" or "https://" plus exactly one character |
| `QuizSolver.FindAllSchemeEmptyIff` | quiz_solver.py:61 | `findall` gives `[]` exactly when the pattern matches at no position |
| `QuizSolver.FindAllSchemeFirst` | quiz_solver.py:61-63 | the first element `findall` lists is the leftmost match |
| `QuizSolver.SearchSchemeChar` | quiz_solver.py:133 | the `re.search` match, if any, is the scheme plus exactly one character |
| `QuizSolver.SearchNoneIff` | quiz_solver.py:133-134 | `re.search` gives `None` exactly when the pattern matches at no position |
| `QuizSolver.SearchLeftmost` | quiz_solver.py:133-135 | `re.search` returns the match at the leftmost matching position |
| `QuizSolver.SubmitCandidates` | quiz_solver.py:62 | the filter keeps only matches with "submit" or "answer" in their lower-case form, and is empty iff no match has one |
| `QuizSolver.SubmitCandidatesFirst` | quiz_solver.py:62-63 | the first kept URL is the first qualifying match |
| `QuizSolver.ExtractSubmitUrl` | quiz_solver.py:59-63 | a result is a match that carries a keyword; `None` iff no match carries one |
| `QuizSolver.NoKeywordInSchemeMatch` | quiz_solver.py:61-62 | no scheme-plus-one-character string contains "submit" or "answer" |
| `QuizSolver.SubmitUrlNeverFound` | quiz_solver.py:59-63 | `extract_submit_url` returns `None` for every page |
| `QuizSolver.Classify` | quiz_solver.py:67-76 | a chosen non-default strategy's keyword test passes; the default is chosen only when no test passes (exactly characterised by `ClassifyFirstMatch`) |
| `QuizSolver.ClassifyFirstMatch` | quiz_solver.py:67-76 | a strategy is chosen iff its keyword test passes (or it is the default) and every earlier test fails |
| `QuizSolver.ClassifyUsesLowered` | quiz_solver.py:67-74 | the branch depends only on `question.lower()` |
| `QuizSolver.FileKeywordsWin` | quiz_solver.py:67-68 | a question containing "download" or "file" takes the file branch whatever else it contains |
| `QuizSolver.SubstringTriggers` | quiz_solver.py:67 | matching is by substring: "profile" takes the file branch |
| `QuizSolver.DottedExtensionAt` | quiz_solver.py:82 | a match needs a dot at the position tried and captures one of pdf, csv, xlsx, json written right after it; a dot followed by one of them always matches |
| `QuizSolver.LazyExtension` | quiz_solver.py:82 | the lazy match ends after its start and inside the text, and captures one of the four extensions |
| `QuizSolver.LazyComplete` | quiz_solver.py:82 | a dotted extension with no newline before it, from the start of the lazy part, is always reached |
| `QuizSolver.LazyFirst` | quiz_solver.py:82 | the lazy part stops at the first dotted extension, ends right after it and captures it |
| `QuizSolver.FileMatchAt` | quiz_solver.py:82 | a match of the file-link pattern ends inside the text and captures one of the four extensions |
| `QuizSolver.FindAllFileExtensions` | quiz_solver.py:82 | every element `findall` returns is "pdf", "csv", "xlsx" or "json" |
| `QuizSolver.FileMatchComplete` | quiz_solver.py:82 | a scheme followed, with no newline in between, by a dot and one of the four extensions is a match at the scheme's position |
| `QuizSolver.FindAllFilesEmptyIff` | quiz_solver.py:82-83 | `findall` of the file-link pattern gives `[]` exactly when it matches at no position |
| `QuizSolver.ExtensionsNeverDotted` | quiz_solver.py:87-92 | none of the four extensions ends with ".pdf", ".csv" or ".xlsx" |
| `QuizSolver.SubmitAnswer` | quiz_solver.py:151-160 | posts `{email, secret, url, answer}` to the fixed endpoint; returns the response body, or `{"error": message}` when the post raises |
| `QuizSolver.QuizSolver.constructor` | quiz_solver.py:13-14 | a fresh handler satisfying its invariant, built from the configuration: its keys, its model (defaulting to `gpt-4-turbo`), the selected provider, and a client holding that provider's key |
| `QuizSolver.QuizSolver.ProcessFile` | quiz_solver.py:97-128 | a parser failure gives that format's failure text; otherwise `solve_generic` of the question, the format's label and the first 2000 characters of the extracted text; never `None` |
| `QuizSolver.QuizSolver.HandleFileDownload` | quiz_solver.py:79-95 | no extension link gives `None`; a fetch that raises gives "Unable to process file" (the full outcome is `FileDownloadNeverExtracts`) |
| `QuizSolver.QuizSolver.FileDownloadNeverExtracts` | quiz_solver.py:79-95 | the file handler returns `None` (no match, or the fetch of the bare extension succeeded) or "Unable to process file" (that fetch raised); no extractor is reached |
| `QuizSolver.QuizSolver.HandleApiCall` | quiz_solver.py:130-141 | the answer is `None` exactly when the question holds no `https?://C` match |
| `QuizSolver.QuizSolver.HandleDataAnalysis` | quiz_solver.py:143-145 | never `None`; without a client, "Error: No LLM client" |
| `QuizSolver.QuizSolver.HandleVisualization` | quiz_solver.py:147-149 | never `None`; without a client, "Error: No LLM client" |
| `QuizSolver.QuizSolver.ExecutePlan` | quiz_solver.py:65-77 | `None` comes only from the file or API branch (the branch taken is `ClassifyFirstMatch`; each branch's answer is `FileBranchAnswers`, `HandleApiCall` and `GenericBranchesCoincide`) |
| `QuizSolver.QuizSolver.ApiCallFetchesOneCharacterUrl` | quiz_solver.py:130-141 | the API handler only fetches scheme-plus-one-character URLs, and returns `None` when the question has none |
| `QuizSolver.QuizSolver.ExecutePlanIgnoresPlan` | quiz_solver.py:65-77 | the plan and the quiz URL never change the answer |
| `QuizSolver.QuizSolver.MarkupOnlyForFiles` | quiz_solver.py:65-77 | the page markup matters only on the file branch |
| `QuizSolver.QuizSolver.GenericBranchesCoincide` | quiz_solver.py:71-76 | the data-analysis, visualization and default branches all return `solve_generic` of the unchanged question |
| `QuizSolver.QuizSolver.FileBranchAnswers` | quiz_solver.py:67-68 | the file branch answers `None` or "Unable to process file" |
| `QuizSolver.QuizSolver.Solve` | quiz_solver.py:33-49 | fails with "Failed to render quiz page" exactly when the markup or text is missing or empty; otherwise answers what `execute_plan` gives for the extracted question, whatever the plan |
| `Server.VerifySecret` | main.py:31-44 | passes iff the body is a non-empty object whose "secret" equals `SECRET` (`None` when unset); an empty body gives 400, a non-object body an internal error, a mismatch 403 |
| `Server.SessionKey` | main.py:59-61 | lists and objects are unhashable; booleans become the keys 1 and 0; other values key themselves |
| `Server.KeyOf` | main.py:59 | the key of an admitted request is hashable and already folded |
| `Server.HandleQuiz` | main.py:47-103 | a request never removes a session, and any key it adds is hashable and folded (the individual outcomes are the lemmas below) |
| `Server.QuizServer.constructor` | main.py:25-28 | the configured secret and an empty session table |
| `Server.QuizServer.Quiz` | main.py:47-103 | the response and the new table are those of the reference request handler, and every stored key stays hashable |
| `Server.GateBeforeSessions` | main.py:34-41 | an empty body gives 400 and a secret mismatch 403, before email/url checks and with the table unchanged |
| `Server.UnsetSecretAdmitsMissingField` | main.py:25-39 | with `SECRET_STRING` unset, a non-empty body without "secret" passes |
| `Server.MissingFieldsRejected` | main.py:55-56 | a missing or falsy email or url gives 400 with the table unchanged |
| `Server.FirstRequestOpensSession` | main.py:61-65 | the first request for an email creates its session at `now`; it holds 1 attempt after a successful solve and 0 otherwise |
| `Server.TimeoutResets` | main.py:68-76 | more than 180 s after the start, the session is reset to (now, 0) and 408 is returned without solving |
| `Server.ExactLimitProceeds` | main.py:69 | exactly 180 s does not time out |
| `Server.AttemptsCountSuccesses` | main.py:80-103 | within the limit, attempts rise by one with 200 and the submit result after a completed solve; a failed solve gives 500 with its message and leaves the session as it was |
| `Server.OtherSessionsUntouched` | main.py:58-93 | entries for other emails are never added, removed or changed |
| `Server.UrlDoesNotKeySession` | main.py:58-59 | requests that differ only in their url update the same session in the same way |
| `Server.BooleanEmailSharesKey` | main.py:59-61 | `true` and 1 (and `false` and 0) name the same session |

## Left out

- Rendering with Playwright and `asyncio.run`: `World.render` gives the markup and text, each possibly `None`.
- The `requests.get` and `requests.post` calls: `World.fetch`, `World.apiGet` and the `post` parameter return a value or raise.
- The OpenAI and Anthropic SDK calls and the prompt texts: `Env.complete` gives the reply for a provider, a model and a request kind.
- `World.fetch` is any function that may return or raise, so the model also admits a fetch of the bare extension (`"pdf"`, …) that returns. `requests.get` rejects such a URL for its missing scheme before any I/O, so in practice a matching link always gives "Unable to process file".
- Parsing PDF, CSV and Excel files: `World.extractText`. `QuizSolver.QuizSolver.ProcessFile` models `process_pdf`, `process_csv` and `process_excel`, which `FileDownloadNeverExtracts` shows are never reached.
- `float()` and float values: `Env.floatParses` decides acceptance, and a float answer keeps its text.
- Text.Lower: only ASCII letters are lowered, because Unicode case mapping is not modelled.
- Text.ParseInt: ASCII digits only, and no limit on the number of digits, because Unicode digits and the interpreter's digit limit are not modelled.
- Text.ParseInt: surrounding whitespace is the `str.isspace` set, so the characters U+001C to U+001F are skipped, whereas `int()` on pure-ASCII text skips only space and tab through carriage return (`int("\x1c5")` raises, the model gives 5). The only caller strips the reply with `str.strip()` first (llm_handler.py:107, 114), so at that call nothing differs.
- LlmHandler.LLMHandler.AnalyzeData: `json.dumps(data)` runs before the `try` (llm_handler.py:137) and would raise on data it cannot serialise; here `data` is a JSON value, which always serialises.
- JSON numbers are integers only, because floats are not modelled.
- `json.dumps` of an API response: `World.apiGet` returns the dumped text, raising where the fetch or `response.json()` would.
- Flask routing, `jsonify`, logging and `load_dotenv` are not modelled. Neither is Flask's own handling of a malformed body or wrong content type before the handler runs.
- The `/health` route is not modelled.
- Server.QuizServer.Quiz: one `now` stands for the source's separate `time.time()` calls, so a new session shows an elapsed time of exactly 0. Elapsed time is exact, with no float rounding.
- Server.QuizServer.Quiz: constructing `QuizSolver()` and calling `solve(url)` is the `solve` parameter. A URL that is not a string makes rendering fail, which `solve` reports as `Failed`.
- Concurrent requests against the session table are not modelled; requests run one at a time.
- The language-model oracle is a function, so repeated questions get the same reply.

=== FILE: json_values.dfy ===
/** JSON values as Python holds them after `json.loads` / `request.get_json()`:
    `None`, booleans, integers, strings, lists and dicts. */
module JsonValues {

  datatype Json =
    | JNull
    | JBool(b: bool)
    | JNumber(n: int)
    | JString(s: string)
    | JArray(items: seq<Json>)
    | JObject(fields: map<string, Json>)

  /** Python truthiness (`if value:`): `None`, `False`, `0`, `""`, `[]` and
      `{}` are false, everything else is true. */
  predicate Truthy(j: Json) {
    match j
    case JNull => false
    case JBool(b) => b
    case JNumber(n) => n != 0
    case JString(s) => s != ""
    case JArray(items) => items != []
    case JObject(fields) => fields != map[]
  }

  /** Exactly six values are falsy; every other value is truthy. */
  lemma FalsyValues(j: Json)
    ensures !Truthy(j) <==>
      || j == JNull || j == JBool(false) || j == JNumber(0)
      || j == JString("") || j == JArray([]) || j == JObject(map[])
  {
  }

  /** `d.get(key)` on a dict: the value, or `None` when the key is absent. */
  function Get(j: Json, key: string): (v: Json)
    requires j.JObject?
    ensures key in j.fields ==> v == j.fields[key]
    ensures key !in j.fields ==> v == JNull
  {
    if key in j.fields then j.fields[key] else JNull
  }

  /** The body `{"error": message}` used by every error response. */
  function ErrorBody(message: string): Json {
    JObject(map["error" := JString(message)])
  }
}

=== FILE: llm_handler.dfy ===
/** The language-model front end: which provider is used, what each of
    `plan_solution`, `solve_generic` and `analyze_data` returns for each
    provider reply, and the sentinels returned when there is no client or a
    call fails. The providers themselves are outside the model: a reply is
    whatever `Env.complete` says it is. */
module LlmHandler {
  import opened Wrappers
  import opened Text
  import opened JsonValues

  datatype Provider = OpenAI | Anthropic

  /** A constructed SDK client, remembered by provider and API key. */
  datatype Client = Client(provider: Provider, apiKey: string)

  /** The environment the handler is constructed from: `OPENAI_API_KEY`,
      `ANTHROPIC_API_KEY`, `LLM_MODEL` (each possibly unset), and whether the
      import and constructor of each SDK client would succeed. */
  datatype Config = Config(
    openaiKey: Option<string>,
    anthropicKey: Option<string>,
    llmModel: Option<string>,
    openaiConstructs: bool,
    anthropicConstructs: bool)

  /** What the handler asks a provider for; the prompt text built from these
      arguments is not modelled. */
  datatype Request =
    | PlanRequest(question: string)
    | SolveRequest(question: string)
    | AnalyzeRequest(data: Json, instruction: string)

  /** Capabilities outside the model. `complete(p, model, request)` is the text
      provider `p` returns for `request` sent to `model`, or the exception the
      call raises; `jsonLoads(t)` is `json.loads(t)`, `None` standing for a
      `JSONDecodeError`; `floatParses(t)` says whether `float(t)` succeeds. */
  datatype Env = Env(
    complete: (Provider, string, Request) -> Call<string>,
    jsonLoads: string -> Option<Json>,
    floatParses: string -> bool)

  /** The values an answer can take: Python `None` (returned by some solver
      handlers), an `int`, a `float` (kept as the text `float()` accepted; its
      value is not modelled) or a `str`. */
  datatype Answer =
    | NoAnswer
    | IntAnswer(i: int)
    | FloatAnswer(literal: string)
    | TextAnswer(text: string)

  const DEFAULT_MODEL := "gpt-4-turbo"
  const ANTHROPIC_MODEL := "claude-3-5-sonnet-20241022"

  const NO_CLIENT := "Error: No LLM client"
  const GENERIC_APPROACH := "Generic approach"
  const PLANNING_ERROR := "Error in planning"
  const CALL_ERROR := "Error"
  const UNABLE_TO_ANSWER := "Unable to generate answer"
  const UNABLE_TO_ANALYZE := "Unable to analyze"

  /** `if key:` on an environment variable: set and not empty. */
  predicate KeySet(key: Option<string>) {
    key.Some? && key.value != ""
  }

  function KeyFor(cfg: Config, p: Provider): Option<string> {
    match p
    case OpenAI => cfg.openaiKey
    case Anthropic => cfg.anthropicKey
  }

  predicate Constructs(cfg: Config, p: Provider) {
    match p
    case OpenAI => cfg.openaiConstructs
    case Anthropic => cfg.anthropicConstructs
  }

  /** Providers in the order `__init__` tries them. */
  const PRIORITY: seq<Provider> := [OpenAI, Anthropic]

  /** The first provider in `ps` whose key is set and whose client constructs. */
  function FirstUsable(cfg: Config, ps: seq<Provider>): (r: Option<Provider>)
    ensures r.Some? ==> r.value in ps && KeySet(KeyFor(cfg, r.value)) && Constructs(cfg, r.value)
    ensures r.None? ==> forall p :: p in ps ==> !KeySet(KeyFor(cfg, p)) || !Constructs(cfg, p)
  {
    if ps == [] then None
    else if KeySet(KeyFor(cfg, ps[0])) && Constructs(cfg, ps[0]) then Some(ps[0])
    else FirstUsable(cfg, ps[1..])
  }

  /** The provider `__init__` ends up with. */
  function SelectedProvider(cfg: Config): Option<Provider> {
    FirstUsable(cfg, PRIORITY)
  }

  /** OpenAI wins whenever it is usable; Anthropic is used only when OpenAI is
      not; with neither usable there is no provider. */
  lemma ProviderSelection(cfg: Config)
    ensures SelectedProvider(cfg) == Some(OpenAI) <==>
      (KeySet(cfg.openaiKey) && cfg.openaiConstructs)
    ensures SelectedProvider(cfg) == Some(Anthropic) <==>
      (!(KeySet(cfg.openaiKey) && cfg.openaiConstructs) && KeySet(cfg.anthropicKey) && cfg.anthropicConstructs)
    ensures SelectedProvider(cfg) == None <==>
      (!(KeySet(cfg.openaiKey) && cfg.openaiConstructs) && !(KeySet(cfg.anthropicKey) && cfg.anthropicConstructs))
  {
    var openaiUsable := KeySet(cfg.openaiKey) && cfg.openaiConstructs;
    if !openaiUsable {
      assert PRIORITY[1..] == [Anthropic];
      assert SelectedProvider(cfg) == FirstUsable(cfg, [Anthropic]);
      assert [Anthropic][1..] == [];
    }
  }

  /** The plan `{'steps': [step]}` used for every fallback. */
  function StepsPlan(step: string): Json {
    JObject(map["steps" := JArray([JString(step)])])
  }

  /** The numeric coercion of `solve_generic`: `int(answer)` first, then
      `float(answer)`, else the text unchanged. */
  function Coerce(answer: string, floatParses: string -> bool): (r: Answer)
    ensures ParseInt(answer).Some? ==> r == IntAnswer(ParseInt(answer).value)
    ensures ParseInt(answer).None? && floatParses(answer) ==> r == FloatAnswer(answer)
    ensures ParseInt(answer).None? && !floatParses(answer) ==> r == TextAnswer(answer)
  {
    match ParseInt(answer)
    case Some(n) => IntAnswer(n)
    case None => if floatParses(answer) then FloatAnswer(answer) else TextAnswer(answer)
  }

  /** `int` is tried before `float`: the decimal rendering of an integer comes
      back as that integer, whatever `float` would have said. */
  lemma IntBeforeFloat(n: int, floatParses: string -> bool)
    ensures Coerce(DecimalString(n), floatParses) == IntAnswer(n)
  {
    DecimalRoundTrip(n);
  }

  /** An answer that `int()` accepts is never returned as text or float; one
      that neither accepts is returned exactly as it came. */
  lemma CoerceKinds(answer: string, floatParses: string -> bool)
    ensures Coerce(answer, floatParses).IntAnswer? <==> IsIntLiteral(Strip(answer))
    ensures Coerce(answer, floatParses) == TextAnswer(answer)
      <==> !IsIntLiteral(Strip(answer)) && !floatParses(answer)
  {
  }

  /** `int("42abc")` and `int("3.14")` raise. */
  lemma ParseIntRejects()
    ensures ParseInt("42abc") == None
    ensures ParseInt("3.14") == None
  {
    var a, b := "42abc", "3.14";
    assert !IsSpace(a[0]) && !IsSpace(a[|a| - 1]);
    assert Strip(a) == a;
    assert !IsDigit(a[|a| - 1]) && a[0] != '+' && a[0] != '-';
    assert !IsSpace(b[0]) && !IsSpace(b[|b| - 1]);
    assert Strip(b) == b;
    assert !IsDigit(b[1]) && b[1] != '_';
    assert !IsIntBody(b);
  }

  /** A digit body without sign or surrounding space parses to its value. */
  lemma ParseIntBody(t: string)
    requires IsIntBody(t)
    ensures ParseInt(t) == Some(BodyValue(t))
  {
    assert !IsSpace(t[0]) && !IsSpace(t[|t| - 1]);
    assert Strip(t) == t;
  }

  /** A sign before a digit body: `+` keeps its value, `-` negates it, so
      `int("+5")` is 5, `int("-05")` is -5 and `int("-1_0")` is -10. */
  lemma ParseIntSigned(b: string, sign: char)
    requires IsIntBody(b) && (sign == '+' || sign == '-')
    ensures ParseInt([sign] + b) == Some(if sign == '-' then 0 - BodyValue(b) as int else BodyValue(b) as int)
  {
    var t := [sign] + b;
    assert t[1..] == b;
    assert !IsSpace(t[0]) && !IsSpace(t[|t| - 1]);
    assert StripLeft(t) == t;
    assert Strip(t) == t;
    assert !IsDigit(t[0]);
  }

  /** `int("42")` is 42. */
  lemma ParseIntAcceptsDigits()
    ensures ParseInt("42") == Some(42)
  {
    var four := ['4'];
    var fortyTwo := four + ['2'];
    assert fortyTwo[..1] == four;
    assert BodyValue(fortyTwo) == 42;
    ParseIntBody(fortyTwo);
    assert fortyTwo == "42";
  }

  /** `int("1_000")` is 1000: underscores between digits are accepted and
      skipped. */
  lemma ParseIntAcceptsUnderscore()
    ensures ParseInt("1_000") == Some(1000)
  {
    var one := ['1'];
    var s1 := one + ['_'];
    var s2 := s1 + ['0'];
    var s3 := s2 + ['0'];
    var s4 := s3 + ['0'];
    assert s1[..1] == one && s2[..2] == s1 && s3[..3] == s2 && s4[..4] == s3;
    assert BodyValue(s1) == 1;
    assert BodyValue(s2) == 10;
    assert BodyValue(s3) == 100;
    assert BodyValue(s4) == 1000;
    ParseIntBody(s4);
    assert s4 == "1_000";
  }

  /** The unknown-provider text of `solve_generic` is not an integer. */
  lemma UnableToAnswerNotInt()
    ensures ParseInt(UNABLE_TO_ANSWER) == None
  {
    var u := UNABLE_TO_ANSWER;
    assert !IsSpace(u[0]) && !IsSpace(u[|u| - 1]);
    assert Strip(u) == u;
    assert !IsDigit(u[0]) && u[0] != '+' && u[0] != '-';
  }

  class LLMHandler {
    var openaiKey: Option<string>
    var anthropicKey: Option<string>
    var model: string
    var client: Option<Client>
    var provider: Option<Provider>

    /** The client is set exactly when the provider is, and for that provider. */
    ghost predicate Valid()
      reads this
    {
      && (client.Some? <==> provider.Some?)
      && (client.Some? ==> client.value.provider == provider.value)
    }

    /** `__init__`: read the configuration, then try OpenAI, then (only when
        there is still no client) Anthropic. */
    constructor (cfg: Config)
      ensures Valid()
      ensures openaiKey == cfg.openaiKey && anthropicKey == cfg.anthropicKey
      ensures model == if cfg.llmModel.Some? then cfg.llmModel.value else DEFAULT_MODEL
      ensures provider == SelectedProvider(cfg)
      ensures client.Some? ==> KeyFor(cfg, client.value.provider) == Some(client.value.apiKey)
    {
      openaiKey := cfg.openaiKey;
      anthropicKey := cfg.anthropicKey;
      model := if cfg.llmModel.Some? then cfg.llmModel.value else DEFAULT_MODEL;
      client := None;
      provider := None;
      new;
      ProviderSelection(cfg);
      if KeySet(openaiKey) {
        if cfg.openaiConstructs {
          client := Some(Client(OpenAI, openaiKey.value));
          provider := Some(OpenAI);
        } else {
          client := None;
        }
      }
      if client.None? && KeySet(anthropicKey) {
        if cfg.anthropicConstructs {
          client := Some(Client(Anthropic, anthropicKey.value));
          provider := Some(Anthropic);
        } else {
          client := None;
        }
      }
    }

    /** The model name sent with a request: `LLM_MODEL` for OpenAI, a fixed
        name for Anthropic. */
    function ModelFor(p: Provider): (m: string)
      reads this
      ensures p == OpenAI ==> m == model
      ensures p == Anthropic ==> m == ANTHROPIC_MODEL
    {
      match p
      case OpenAI => model
      case Anthropic => ANTHROPIC_MODEL
    }

    /** One call to the configured provider. */
    function Ask(p: Provider, request: Request, env: Env): Call<string>
      reads this
    {
      env.complete(p, ModelFor(p), request)
    }

    /** `plan_solution`: never raises. Without a client it returns the
        no-client plan; a reply that is not JSON gives the generic plan; a
        failed call gives the planning-error plan; otherwise the parsed reply.
        Under `Valid()` a client comes with its provider, so the final
        else-branch of the provider test is unreachable. */
    function PlanSolution(question: string, env: Env): (plan: Json)
      reads this
      ensures client.None? ==> plan == StepsPlan(NO_CLIENT)
      ensures client.Some? && provider.None? ==> !Valid() && plan == StepsPlan(GENERIC_APPROACH)
      ensures Valid() && client.Some? ==>
        var reply := Ask(provider.value, PlanRequest(question), env);
        && (reply.Raised? ==> plan == StepsPlan(PLANNING_ERROR))
        && (reply.Returned? && env.jsonLoads(reply.value).None? ==> plan == StepsPlan(GENERIC_APPROACH))
        && (reply.Returned? && env.jsonLoads(reply.value).Some? ==> plan == env.jsonLoads(reply.value).value)
    {
      if client.None? then StepsPlan(NO_CLIENT)
      else match provider
        case Some(p) =>
          (match Ask(p, PlanRequest(question), env)
           case Raised(_) => StepsPlan(PLANNING_ERROR)
           case Returned(text) =>
             match env.jsonLoads(text)
             case None => StepsPlan(GENERIC_APPROACH)
             case Some(parsed) => parsed)
        case None => StepsPlan(GENERIC_APPROACH)
    }

    /** `solve_generic`: never raises and never returns `None`. Without a
        client it returns the no-client text; a failed call gives "Error";
        otherwise the stripped reply, coerced to `int`, else `float`, else
        kept as text ("Unable to generate answer" is unreachable under
        `Valid()`). */
    function SolveGeneric(question: string, env: Env): (answer: Answer)
      reads this
      ensures !answer.NoAnswer?
      ensures client.None? ==> answer == TextAnswer(NO_CLIENT)
      ensures client.Some? && provider.None? ==> !Valid() && answer == Coerce(UNABLE_TO_ANSWER, env.floatParses)
      ensures client.Some? && provider.None? && !env.floatParses(UNABLE_TO_ANSWER) ==>
                answer == TextAnswer(UNABLE_TO_ANSWER)
      ensures Valid() && client.Some? ==>
        var reply := Ask(provider.value, SolveRequest(question), env);
        && (reply.Raised? ==> answer == TextAnswer(CALL_ERROR))
        && (reply.Returned? ==> answer == Coerce(Strip(reply.value), env.floatParses))
    {
      if client.None? then TextAnswer(NO_CLIENT)
      else
        UnableToAnswerNotInt();
        var reply := match provider
          case Some(p) => (match Ask(p, SolveRequest(question), env)
                           case Raised(e) => Raised(e)
                           case Returned(text) => Returned(Strip(text)))
          case None => Returned(UNABLE_TO_ANSWER);
        match reply
        case Raised(_) => TextAnswer(CALL_ERROR)
        case Returned(text) => Coerce(text, env.floatParses)
    }

    /** `analyze_data`: never coerces, and raises only if `data` cannot be
        serialised by `json.dumps`, which happens before the `try`; a `Json`
        value always can. Without a client it returns the no-client text; a
        failed call gives "Error"; otherwise the stripped reply ("Unable to
        analyze" is unreachable under `Valid()`). */
    function AnalyzeData(data: Json, instruction: string, env: Env): (r: string)
      reads this
      ensures client.None? ==> r == NO_CLIENT
      ensures client.Some? && provider.None? ==> !Valid() && r == UNABLE_TO_ANALYZE
      ensures Valid() && client.Some? ==>
        var reply := Ask(provider.value, AnalyzeRequest(data, instruction), env);
        && (reply.Raised? ==> r == CALL_ERROR)
        && (reply.Returned? ==> r == Strip(reply.value))
    {
      if client.None? then NO_CLIENT
      else match provider
        case Some(p) =>
          (match Ask(p, AnalyzeRequest(data, instruction), env)
           case Raised(_) => CALL_ERROR
           case Returned(text) => Strip(text))
        case None => UNABLE_TO_ANALYZE
    }

    /** Without a client no provider is consulted: all three operations give
        their sentinel whatever the environment would have answered. */
    lemma NoClientSentinels(question: string, data: Json, instruction: string, env1: Env, env2: Env)
      requires client.None?
      ensures PlanSolution(question, env1) == PlanSolution(question, env2) == StepsPlan(NO_CLIENT)
      ensures SolveGeneric(question, env1) == SolveGeneric(question, env2) == TextAnswer(NO_CLIENT)
      ensures AnalyzeData(data, instruction, env1) == AnalyzeData(data, instruction, env2) == NO_CLIENT
    {
    }
  }
}

=== FILE: quiz_solver.dfy ===
/** The solving pipeline: pull a question and a submit URL out of a rendered
    page, classify the question by keywords, run the matching handler and
    return its answer. Rendering, downloads, API fetches and file parsers are
    outside the model and appear as the fields of `World`. */
module QuizSolver {
  import opened Wrappers
  import opened Text
  import opened JsonValues
  import opened LlmHandler

  // ---------------------------------------------------------------------
  // extract_question

  /** How much of the page text is used when no line looks like a question. */
  const QUESTION_FALLBACK_LENGTH: nat := 500

  /** The loop test of `extract_question`: the stripped line starts with an
      upper-case "Q" and the line contains a ".". */
  predicate IsQuestionLine(line: string) {
    StartsWith(Strip(line), "Q") && '.' in line
  }

  /** Line `i` is a question line and no earlier line is. */
  predicate IsFirstQuestionLine(lines: seq<string>, i: nat) {
    && i < |lines|
    && IsQuestionLine(lines[i])
    && forall j :: 0 <= j < i ==> !IsQuestionLine(lines[j])
  }

  /** The stripped first question line, if there is one. */
  function FirstQuestionLine(lines: seq<string>): (r: Option<string>)
    ensures r.Some? ==> StartsWith(r.value, "Q")
  {
    if lines == [] then None
    else if IsQuestionLine(lines[0]) then Some(Strip(lines[0]))
    else FirstQuestionLine(lines[1..])
  }

  /** What `extract_question` returns for `text`. */
  function QuestionOf(text: string): (r: string)
    ensures StartsWith(r, "Q") || r == Prefix(text, QUESTION_FALLBACK_LENGTH)
  {
    match FirstQuestionLine(SplitLines(text))
    case Some(q) => q
    case None => Prefix(text, QUESTION_FALLBACK_LENGTH)
  }

  lemma {:induction false} FirstQuestionLineAt(lines: seq<string>, i: nat)
    requires IsFirstQuestionLine(lines, i)
    ensures FirstQuestionLine(lines) == Some(Strip(lines[i]))
  {
    if i > 0 {
      assert !IsQuestionLine(lines[0]);
      assert IsFirstQuestionLine(lines[1..], i - 1) by {
        forall j | 0 <= j < i - 1 ensures !IsQuestionLine(lines[1..][j]) {
          assert lines[1..][j] == lines[j + 1];
        }
      }
      FirstQuestionLineAt(lines[1..], i - 1);
    }
  }

  lemma {:induction false} FirstQuestionLineNone(lines: seq<string>)
    requires forall i :: 0 <= i < |lines| ==> !IsQuestionLine(lines[i])
    ensures FirstQuestionLine(lines) == None
  {
    if lines != [] {
      assert !IsQuestionLine(lines[0]);
      FirstQuestionLineNone(lines[1..]);
    }
  }

  /** The first line of `text.split("\n")` that passes the test is returned
      stripped; no earlier line passes. */
  lemma QuestionIsFirstMatchingLine(text: string, i: nat)
    requires IsFirstQuestionLine(SplitLines(text), i)
    ensures QuestionOf(text) == Strip(SplitLines(text)[i])
  {
    FirstQuestionLineAt(SplitLines(text), i);
  }

  /** With no question line the result is `text[:500]`: a prefix of the text
      of length min(len(text), 500). */
  lemma QuestionFallsBackToPrefix(text: string)
    requires forall i :: 0 <= i < |SplitLines(text)| ==> !IsQuestionLine(SplitLines(text)[i])
    ensures |QuestionOf(text)| == if |text| < 500 then |text| else 500
    ensures QuestionOf(text) == text[..|QuestionOf(text)|]
  {
    FirstQuestionLineNone(SplitLines(text));
  }

  /** `extract_question`: scan the lines, return the first question line
      stripped, else the first 500 characters of the text. */
  method ExtractQuestion(text: string) returns (question: string)
    ensures question == QuestionOf(text)
  {
    var lines := SplitLines(text);
    var i := 0;
    while i < |lines|
      invariant 0 <= i <= |lines|
      invariant FirstQuestionLine(lines[i..]) == FirstQuestionLine(lines)
    {
      if IsQuestionLine(lines[i]) {
        question := Strip(lines[i]);
        return;
      }
      assert lines[i..][1..] == lines[i + 1..];
      i := i + 1;
    }
    assert lines[i..] == [];
    question := Prefix(text, QUESTION_FALLBACK_LENGTH);
  }

  // ---------------------------------------------------------------------
  // The pattern https?://C where C is one character of a class

  /** `[^\s"]`, the class of `extract_submit_url`'s pattern. */
  predicate SubmitUrlChar(c: char) {
    !IsSpace(c) && c != '"'
  }

  /** `[^\s]`, the class of `handle_api_call`'s pattern. */
  predicate ApiUrlChar(c: char) {
    !IsSpace(c)
  }

  /** Every match of `https?://C` is the scheme plus exactly one character. */
  predicate IsSchemeAndOneChar(m: string) {
    || (|m| == 8 && m[..7] == "http://")
    || (|m| == 9 && m[..8] == "https://")
  }

  /** The match of `https?://C` starting at `i`, if any. `s?` is greedy, and
      when "https" is present the alternative without "s" cannot match, so
      the two tests below are the whole of the backtracking. */
  function SchemeMatchAt(s: string, i: nat, cls: char -> bool): (m: Option<string>)
    ensures m.Some? ==> IsSchemeAndOneChar(m.value) && StartsAt(s, m.value, i)
    ensures (|| (StartsAt(s, "https://", i) && i + 8 < |s| && cls(s[i + 8]))
             || (StartsAt(s, "http://", i) && i + 7 < |s| && cls(s[i + 7]))) ==> m.Some?
  {
    if StartsAt(s, "https://", i) && i + 8 < |s| && cls(s[i + 8]) then Some(s[i..i + 9])
    else if StartsAt(s, "http://", i) && i + 7 < |s| && cls(s[i + 7]) then Some(s[i..i + 8])
    else None
  }

  /** `re.findall` of `https?://C` on `s[i:]`: non-overlapping, left to right. */
  function FindAllSchemeChar(s: string, i: nat, cls: char -> bool): (ms: seq<string>)
    decreases |s| - i
    ensures forall k :: 0 <= k < |ms| ==> IsSchemeAndOneChar(ms[k])
  {
    if i >= |s| then []
    else match SchemeMatchAt(s, i, cls)
      case Some(m) => [m] + FindAllSchemeChar(s, i + |m|, cls)
      case None => FindAllSchemeChar(s, i + 1, cls)
  }

  /** `re.search` of `https?://C` on `s[i:]`: the leftmost match. */
  function SearchSchemeChar(s: string, i: nat, cls: char -> bool): (m: Option<string>)
    decreases |s| - i
    ensures m.Some? ==> IsSchemeAndOneChar(m.value)
  {
    if i >= |s| then None
    else match SchemeMatchAt(s, i, cls)
      case Some(m) => Some(m)
      case None => SearchSchemeChar(s, i + 1, cls)
  }

  /** Position `j` is the first from `i` where `https?://C` matches. */
  predicate FirstSchemeMatch(s: string, i: nat, j: nat, cls: char -> bool) {
    && i <= j < |s|
    && SchemeMatchAt(s, j, cls).Some?
    && forall l :: i <= l < j ==> SchemeMatchAt(s, l, cls).None?
  }

  /** `re.search` finds nothing exactly when no position matches. */
  lemma {:induction false} SearchNoneIff(s: string, i: nat, cls: char -> bool)
    decreases |s| - i
    ensures SearchSchemeChar(s, i, cls).None? <==>
              forall j :: i <= j < |s| ==> SchemeMatchAt(s, j, cls).None?
  {
    if i < |s| {
      SearchNoneIff(s, i + 1, cls);
    }
  }

  /** `re.search` returns the leftmost match. */
  lemma {:induction false} SearchLeftmost(s: string, i: nat, j: nat, cls: char -> bool)
    requires FirstSchemeMatch(s, i, j, cls)
    decreases j - i
    ensures SearchSchemeChar(s, i, cls) == SchemeMatchAt(s, j, cls)
  {
    if i < j {
      SearchLeftmost(s, i + 1, j, cls);
    }
  }

  /** `re.findall` gives `[]` exactly when no position matches. */
  lemma {:induction false} FindAllSchemeEmptyIff(s: string, i: nat, cls: char -> bool)
    decreases |s| - i
    ensures FindAllSchemeChar(s, i, cls) == [] <==>
              forall j :: i <= j < |s| ==> SchemeMatchAt(s, j, cls).None?
  {
    if i < |s| && SchemeMatchAt(s, i, cls).None? {
      FindAllSchemeEmptyIff(s, i + 1, cls);
    }
  }

  /** The first element `re.findall` lists is the leftmost match. */
  lemma {:induction false} FindAllSchemeFirst(s: string, i: nat, j: nat, cls: char -> bool)
    requires FirstSchemeMatch(s, i, j, cls)
    decreases j - i
    ensures FindAllSchemeChar(s, i, cls) != []
    ensures FindAllSchemeChar(s, i, cls)[0] == SchemeMatchAt(s, j, cls).value
  {
    if i < j {
      FindAllSchemeFirst(s, i + 1, j, cls);
    }
  }

  // ---------------------------------------------------------------------
  // extract_submit_url

  /** The keyword filter: "submit" or "answer" in `u.lower()`. */
  predicate HasSubmitKeyword(u: string) {
    Contains(Lower(u), "submit") || Contains(Lower(u), "answer")
  }

  /** `[u for u in urls if ...]` with the keyword filter, order kept. */
  function SubmitCandidates(urls: seq<string>): (r: seq<string>)
    ensures forall k :: 0 <= k < |r| ==> r[k] in urls && HasSubmitKeyword(r[k])
    ensures r == [] <==> forall k :: 0 <= k < |urls| ==> !HasSubmitKeyword(urls[k])
  {
    if urls == [] then []
    else if HasSubmitKeyword(urls[0]) then [urls[0]] + SubmitCandidates(urls[1..])
    else SubmitCandidates(urls[1..])
  }

  /** The filter keeps the first qualifying URL first. */
  lemma {:induction false} SubmitCandidatesFirst(urls: seq<string>, k: nat)
    requires k < |urls| && HasSubmitKeyword(urls[k])
    requires forall j :: 0 <= j < k ==> !HasSubmitKeyword(urls[j])
    ensures SubmitCandidates(urls) != [] && SubmitCandidates(urls)[0] == urls[k]
  {
    if k > 0 {
      assert !HasSubmitKeyword(urls[0]);
      forall j | 0 <= j < k - 1 ensures !HasSubmitKeyword(urls[1..][j]) {
        assert urls[1..][j] == urls[j + 1];
      }
      SubmitCandidatesFirst(urls[1..], k - 1);
    }
  }

  /** The matches `extract_submit_url` filters. */
  function SubmitUrlMatches(html: string): seq<string> {
    FindAllSchemeChar(html, 0, SubmitUrlChar)
  }

  /** `extract_submit_url`: the first match carrying a submit keyword, or
      `None` when no match carries one. */
  function ExtractSubmitUrl(html: string): (r: Option<string>)
    ensures r.Some? ==> r.value in SubmitUrlMatches(html) && HasSubmitKeyword(r.value)
    ensures r.None? <==>
      forall k :: 0 <= k < |SubmitUrlMatches(html)| ==> !HasSubmitKeyword(SubmitUrlMatches(html)[k])
  {
    var candidates := SubmitCandidates(SubmitUrlMatches(html));
    if candidates != [] then Some(candidates[0]) else None
  }

  /** No scheme-plus-one-character string contains "submit" or "answer":
      every window of six characters covers position 5, which holds ':' or
      '/'. */
  lemma NoKeywordInSchemeMatch(m: string)
    requires IsSchemeAndOneChar(m)
    ensures !HasSubmitKeyword(m)
  {
    var lowered := Lower(m);
    if |m| == 8 {
      assert m[5] == m[..7][5] == '/';
    } else {
      assert m[5] == m[..8][5] == ':';
    }
    assert lowered[5] == m[5];
    BlockedNotContains(lowered, "submit", 5);
    BlockedNotContains(lowered, "answer", 5);
  }

  /** The submit URL is never found: the pattern captures one character after
      the scheme, so no match can carry a keyword. */
  lemma SubmitUrlNeverFound(html: string)
    ensures ExtractSubmitUrl(html) == None
  {
    var urls := SubmitUrlMatches(html);
    forall k | 0 <= k < |urls| ensures !HasSubmitKeyword(urls[k]) {
      NoKeywordInSchemeMatch(urls[k]);
    }
  }

  // ---------------------------------------------------------------------
  // execute_plan: classification

  datatype Strategy = FileDownload | ApiCall | DataAnalysis | Visualization | GenericSolve

  /** The keywords that select each strategy. */
  function Keywords(st: Strategy): seq<string> {
    match st
    case FileDownload => ["download", "file"]
    case ApiCall => ["api", "endpoint"]
    case DataAnalysis => ["sum", "average", "count", "analyze"]
    case Visualization => ["chart", "graph"]
    case GenericSolve => []
  }

  /** The position of each strategy in the cascade. */
  function Rank(st: Strategy): nat {
    match st
    case FileDownload => 0
    case ApiCall => 1
    case DataAnalysis => 2
    case Visualization => 3
    case GenericSolve => 4
  }

  /** `any(x in s for x in keywords)`. */
  predicate AnyIn(keywords: seq<string>, s: string) {
    keywords != [] && (Contains(s, keywords[0]) || AnyIn(keywords[1..], s))
  }

  /** The test of strategy `st` on a question. */
  predicate Selects(st: Strategy, question: string) {
    AnyIn(Keywords(st), Lower(question))
  }

  /** The if/elif cascade of `execute_plan`. */
  function Classify(question: string): (r: Strategy)
    ensures r != GenericSolve ==> Selects(r, question)
    ensures r == GenericSolve ==> forall st :: !Selects(st, question)
  {
    var q := Lower(question);
    if AnyIn(Keywords(FileDownload), q) then FileDownload
    else if AnyIn(Keywords(ApiCall), q) then ApiCall
    else if AnyIn(Keywords(DataAnalysis), q) then DataAnalysis
    else if AnyIn(Keywords(Visualization), q) then Visualization
    else GenericSolve
  }

  /** First match wins: the chosen strategy's test passes (or it is the
      default) and every earlier test fails, and only that strategy has this
      property. */
  lemma ClassifyFirstMatch(question: string, st: Strategy)
    ensures Classify(question) == st <==>
      ((st == GenericSolve || Selects(st, question))
       && forall e :: Rank(e) < Rank(st) ==> !Selects(e, question))
  {
    var c := Classify(question);
    assert !Selects(GenericSolve, question);
    if c != st && (st == GenericSolve || Selects(st, question)) {
      assert Rank(c) < Rank(st);
      assert Selects(c, question);
    }
  }

  /** The branch is a function of `question.lower()` alone. */
  lemma ClassifyUsesLowered(q1: string, q2: string)
    requires Lower(q1) == Lower(q2)
    ensures Classify(q1) == Classify(q2)
  {
  }

  /** "download" and "file" take precedence over every later keyword. */
  lemma FileKeywordsWin(question: string)
    requires Contains(Lower(question), "download") || Contains(Lower(question), "file")
    ensures Classify(question) == FileDownload
  {
    var q := Lower(question);
    assert Keywords(FileDownload)[1..] == ["file"];
    assert AnyIn(["file"], q) <== Contains(q, "file");
    assert AnyIn(Keywords(FileDownload), q);
  }

  /** Matching is by substring: "profile" contains "file". */
  lemma SubstringTriggers()
    ensures Classify("profile") == FileDownload
  {
    var q := "profile";
    assert Lower(q) == q by {
      forall i | 0 <= i < |q| ensures Lower(q)[i] == q[i] {}
    }
    assert q[3..7] == "file";
    assert StartsAt(q, "file", 3);
    ContainsIffOccurs(q, "file");
    FileKeywordsWin(q);
  }

  // ---------------------------------------------------------------------
  // The outside world

  type Bytes = seq<bv8>

  datatype FileFormat = Pdf | Csv | Excel

  /** `render_page(url)`: the markup and the visible text, each possibly
      `None` (both are `None` when rendering raised). */
  datatype Rendered = Rendered(html: Option<string>, text: Option<string>)

  /** Capabilities outside the model: the language-model environment, the
      page renderer, `requests.get(url).content`, the text a file parser
      extracts (`None` when it raises), and `json.dumps` of an API response
      (raising when the fetch or `response.json()` does). */
  datatype World = World(
    env: Env,
    render: string -> Rendered,
    fetch: string -> Call<Bytes>,
    extractText: (FileFormat, Bytes) -> Option<string>,
    apiGet: string -> Call<string>)

  datatype SolveOutcome = Answered(answer: Answer) | Failed(message: string)

  // ---------------------------------------------------------------------
  // handle_file_download: the pattern https?://.*?\.(pdf|csv|xlsx|json)

  const FILE_EXTENSIONS: seq<string> := ["pdf", "csv", "xlsx", "json"]
  const FILE_FAILURE := "Unable to process file"
  const API_FAILURE := "API call failed"
  const RENDER_FAILURE := "Failed to render quiz page"
  /** How much extracted text or API response is forwarded. */
  const EXCERPT_LENGTH: nat := 2000

  /** `\.(pdf|csv|xlsx|json)` at position `k`: the captured group. */
  function DottedExtensionAt(s: string, k: nat): (ext: Option<string>)
    ensures ext.Some? ==> ext.value in FILE_EXTENSIONS && StartsAt(s, ext.value, k + 1)
    ensures ext.Some? ==> k < |s| && s[k] == '.'
    ensures k < |s| && s[k] == '.' && (exists e :: e in FILE_EXTENSIONS && StartsAt(s, e, k + 1)) ==> ext.Some?
  {
    if k < |s| && s[k] == '.' then
      if StartsAt(s, "pdf", k + 1) then Some("pdf")
      else if StartsAt(s, "csv", k + 1) then Some("csv")
      else if StartsAt(s, "xlsx", k + 1) then Some("xlsx")
      else if StartsAt(s, "json", k + 1) then Some("json")
      else None
    else None
  }

  /** `.*?\.(pdf|csv|xlsx|json)` from position `k`: the lazy `.*?` grows one
      character at a time and cannot cross a newline. Gives the end of the
      match and the captured group. */
  function LazyExtension(s: string, k: nat): (r: Option<(nat, string)>)
    decreases |s| - k
    ensures r.Some? ==> k < r.value.0 <= |s| && r.value.1 in FILE_EXTENSIONS
  {
    if k >= |s| then None
    else match DottedExtensionAt(s, k)
      case Some(ext) => Some((k + 1 + |ext|, ext))
      case None => if s[k] == '\n' then None else LazyExtension(s, k + 1)
  }

  /** No newline in `s[k..d]`. */
  predicate NoNewline(s: string, k: nat, d: nat)
    requires k <= d <= |s|
  {
    forall l :: k <= l < d ==> s[l] != '\n'
  }

  /** The lazy `.*?` reaches any dotted extension that no newline precedes:
      a dot at `d` followed by an extension makes the scan from `k` succeed. */
  lemma {:induction false} LazyComplete(s: string, k: nat, d: nat)
    requires k <= d < |s| && DottedExtensionAt(s, d).Some? && NoNewline(s, k, d)
    decreases d - k
    ensures LazyExtension(s, k).Some?
  {
    if DottedExtensionAt(s, k).None? {
      LazyComplete(s, k + 1, d);
    }
  }

  /** The lazy `.*?` stops at the first dotted extension: the match ends
      right after it and captures it. */
  lemma {:induction false} LazyFirst(s: string, k: nat, d: nat)
    requires k <= d < |s| && DottedExtensionAt(s, d).Some? && NoNewline(s, k, d)
    requires forall l :: k <= l < d ==> DottedExtensionAt(s, l).None?
    decreases d - k
    ensures LazyExtension(s, k) ==
              Some((d + 1 + |DottedExtensionAt(s, d).value|, DottedExtensionAt(s, d).value))
  {
    if k < d {
      LazyFirst(s, k + 1, d);
    }
  }

  /** The whole pattern at position `i`. */
  function FileMatchAt(s: string, i: nat): (r: Option<(nat, string)>)
    ensures r.Some? ==> i < r.value.0 <= |s| && r.value.1 in FILE_EXTENSIONS
  {
    if StartsAt(s, "https://", i) then LazyExtension(s, i + 8)
    else if StartsAt(s, "http://", i) then LazyExtension(s, i + 7)
    else None
  }

  /** `re.findall` on `s[i:]`: with one capture group it lists the groups,
      so every element is a bare extension. */
  function FindAllFileExtensions(s: string, i: nat): (groups: seq<string>)
    decreases |s| - i
    ensures forall k :: 0 <= k < |groups| ==> groups[k] in FILE_EXTENSIONS
  {
    if i >= |s| then []
    else match FileMatchAt(s, i)
      case Some(found) => [found.1] + FindAllFileExtensions(s, found.0)
      case None => FindAllFileExtensions(s, i + 1)
  }

  /** A scheme at `i`, then a dotted extension with no newline in between,
      is a match of the file-link pattern at `i`. */
  lemma FileMatchComplete(s: string, i: nat, scheme: string, d: nat)
    requires scheme == "http://" || scheme == "https://"
    requires StartsAt(s, scheme, i) && i + |scheme| <= d < |s|
    requires DottedExtensionAt(s, d).Some? && NoNewline(s, i + |scheme|, d)
    ensures FileMatchAt(s, i).Some?
  {
    if scheme == "http://" {
      assert s[i + 4] == ':';
      assert !StartsAt(s, "https://", i);
    }
    LazyComplete(s, i + |scheme|, d);
  }

  /** `re.findall` of the file-link pattern gives `[]` exactly when no
      position matches. */
  lemma {:induction false} FindAllFilesEmptyIff(s: string, i: nat)
    decreases |s| - i
    ensures FindAllFileExtensions(s, i) == [] <==> forall j :: i <= j < |s| ==> FileMatchAt(s, j).None?
  {
    if i < |s| && FileMatchAt(s, i).None? {
      FindAllFilesEmptyIff(s, i + 1);
    }
  }

  /** No bare extension ends with ".pdf", ".csv" or ".xlsx". */
  lemma ExtensionsNeverDotted(ext: string)
    requires ext in FILE_EXTENSIONS
    ensures !EndsWith(ext, ".pdf") && !EndsWith(ext, ".csv") && !EndsWith(ext, ".xlsx")
  {
  }

  function ExtractionFailure(format: FileFormat): string {
    match format
    case Pdf => "PDF processing failed"
    case Csv => "CSV processing failed"
    case Excel => "Excel processing failed"
  }

  function ExcerptLabel(format: FileFormat): string {
    match format
    case Pdf => "\nContent:\n"
    case Csv => "\nData:\n"
    case Excel => "\nData:\n"
  }

  // ---------------------------------------------------------------------
  // submit_answer

  const SUBMIT_ENDPOINT := "https://tds-llm-analysis.s-anand.net/submit"

  /** The JSON object `{email, secret, url, answer}` that is posted. */
  datatype Payload = Payload(email: Json, secret: Option<string>, url: Json, answer: Answer)

  /** `submit_answer`: posts the payload to the fixed endpoint and returns the
      response body, or `{"error": str(e)}` when the post or the decoding of
      its response raises. Never raises itself. */
  function SubmitAnswer(email: Json, secret: Option<string>, url: Json, answer: Answer,
                        post: (string, Payload) -> Call<Json>): (result: Json)
    ensures post(SUBMIT_ENDPOINT, Payload(email, secret, url, answer)).Returned? ==>
      result == post(SUBMIT_ENDPOINT, Payload(email, secret, url, answer)).value
    ensures post(SUBMIT_ENDPOINT, Payload(email, secret, url, answer)).Raised? ==>
      result == ErrorBody(post(SUBMIT_ENDPOINT, Payload(email, secret, url, answer)).message)
  {
    match post(SUBMIT_ENDPOINT, Payload(email, secret, url, answer))
    case Returned(body) => body
    case Raised(message) => ErrorBody(message)
  }

  // ---------------------------------------------------------------------
  // The solver object

  /** `render_page` produced non-empty markup and non-empty text. */
  predicate RenderedOk(r: Rendered) {
    r.html.Some? && r.html.value != "" && r.text.Some? && r.text.value != ""
  }

  class QuizSolver {
    const llm: LLMHandler

    /** `__init__`: a fresh language-model handler built from `cfg`. */
    constructor (cfg: Config)
      ensures fresh(llm) && llm.Valid()
      ensures llm.openaiKey == cfg.openaiKey && llm.anthropicKey == cfg.anthropicKey
      ensures llm.model == if cfg.llmModel.Some? then cfg.llmModel.value else DEFAULT_MODEL
      ensures llm.provider == SelectedProvider(cfg)
      ensures llm.client.Some? ==> KeyFor(cfg, llm.client.value.provider) == Some(llm.client.value.apiKey)
    {
      llm := new LLMHandler(cfg);
    }

    /** `process_pdf`, `process_csv` and `process_excel`: forward the first
        2000 characters of the extracted text to `solve_generic`, or return
        the format's failure text when parsing raises. */
    function ProcessFile(format: FileFormat, content: Bytes, question: string, world: World): (r: Answer)
      reads llm
      ensures world.extractText(format, content).None? ==> r == TextAnswer(ExtractionFailure(format))
      ensures world.extractText(format, content).Some? ==>
                r == llm.SolveGeneric(question + ExcerptLabel(format)
                                      + Prefix(world.extractText(format, content).value, EXCERPT_LENGTH), world.env)
      ensures !r.NoAnswer?
    {
      match world.extractText(format, content)
      case None => TextAnswer(ExtractionFailure(format))
      case Some(text) =>
        llm.SolveGeneric(question + ExcerptLabel(format) + Prefix(text, EXCERPT_LENGTH), world.env)
    }

    /** `handle_file_download`. */
    function HandleFileDownload(question: string, quizUrl: string, html: string, world: World): (r: Answer)
      reads llm
      ensures FindAllFileExtensions(html, 0) == [] ==> r == NoAnswer
      ensures FindAllFileExtensions(html, 0) != [] && world.fetch(FindAllFileExtensions(html, 0)[0]).Raised? ==>
                r == TextAnswer(FILE_FAILURE)
    {
      var urls := FindAllFileExtensions(html, 0);
      if urls == [] then NoAnswer
      else
        var fileUrl := urls[0];
        match world.fetch(fileUrl)
        case Raised(_) => TextAnswer(FILE_FAILURE)
        case Returned(content) =>
          if EndsWith(fileUrl, ".pdf") then ProcessFile(Pdf, content, question, world)
          else if EndsWith(fileUrl, ".csv") then ProcessFile(Csv, content, question, world)
          else if EndsWith(fileUrl, ".xlsx") then ProcessFile(Excel, content, question, world)
          else NoAnswer
    }

    /** `handle_file_download` never reaches an extractor: it fetches the bare
        extension that `findall` captured and returns `None`, or the failure
        text when that fetch raises, or `None` when nothing matched. */
    lemma FileDownloadNeverExtracts(question: string, quizUrl: string, html: string, world: World)
      ensures var urls := FindAllFileExtensions(html, 0);
        HandleFileDownload(question, quizUrl, html, world) ==
          if urls == [] || world.fetch(urls[0]).Returned? then NoAnswer else TextAnswer(FILE_FAILURE)
    {
      var urls := FindAllFileExtensions(html, 0);
      if urls != [] {
        ExtensionsNeverDotted(urls[0]);
      }
    }

    /** `handle_api_call`: fetch the first `https?://C` in the question (one
        character after the scheme) and forward the response to
        `solve_generic`; `None` when the question has no such match. */
    function HandleApiCall(question: string, world: World): (r: Answer)
      reads llm
      ensures r.NoAnswer? <==> SearchSchemeChar(question, 0, ApiUrlChar).None?
    {
      match SearchSchemeChar(question, 0, ApiUrlChar)
      case None => NoAnswer
      case Some(apiUrl) =>
        match world.apiGet(apiUrl)
        case Raised(_) => TextAnswer(API_FAILURE)
        case Returned(dumped) =>
          llm.SolveGeneric(question + "\nResponse:\n" + Prefix(dumped, EXCERPT_LENGTH), world.env)
    }

    /** `handle_api_call` only ever fetches a scheme followed by one
        character: two worlds that agree on those fetches (and on the
        language model) give the same answer, and without a match the answer
        is `None`. */
    lemma ApiCallFetchesOneCharacterUrl(question: string, world1: World, world2: World)
      requires world1.env == world2.env
      requires forall u :: IsSchemeAndOneChar(u) ==> world1.apiGet(u) == world2.apiGet(u)
      ensures HandleApiCall(question, world1) == HandleApiCall(question, world2)
      ensures SearchSchemeChar(question, 0, ApiUrlChar).None? ==> HandleApiCall(question, world1) == NoAnswer
    {
      match SearchSchemeChar(question, 0, ApiUrlChar)
      case None =>
      case Some(apiUrl) =>
        assert world1.apiGet(apiUrl) == world2.apiGet(apiUrl);
    }

    /** `handle_data_analysis`. */
    function HandleDataAnalysis(question: string, quizUrl: string, html: string, world: World): (r: Answer)
      reads llm
      ensures !r.NoAnswer?
      ensures llm.client.None? ==> r == TextAnswer(NO_CLIENT)
    {
      llm.SolveGeneric(question, world.env)
    }

    /** `handle_visualization`. */
    function HandleVisualization(question: string, quizUrl: string, world: World): (r: Answer)
      reads llm
      ensures !r.NoAnswer?
      ensures llm.client.None? ==> r == TextAnswer(NO_CLIENT)
    {
      llm.SolveGeneric(question, world.env)
    }

    /** `execute_plan`: classify, then run the chosen handler. */
    function ExecutePlan(plan: Json, question: string, quizUrl: string, html: string, world: World): (r: Answer)
      reads llm
      ensures r.NoAnswer? ==> Classify(question) == FileDownload || Classify(question) == ApiCall
    {
      match Classify(question)
      case FileDownload => HandleFileDownload(question, quizUrl, html, world)
      case ApiCall => HandleApiCall(question, world)
      case DataAnalysis => HandleDataAnalysis(question, quizUrl, html, world)
      case Visualization => HandleVisualization(question, quizUrl, world)
      case GenericSolve => llm.SolveGeneric(question, world.env)
    }

    /** The plan and the quiz URL never influence the answer. */
    lemma ExecutePlanIgnoresPlan(plan1: Json, plan2: Json, question: string, url1: string, url2: string,
                                 html: string, world: World)
      ensures ExecutePlan(plan1, question, url1, html, world) == ExecutePlan(plan2, question, url2, html, world)
    {
    }

    /** The markup only matters on the file branch. */
    lemma MarkupOnlyForFiles(plan: Json, question: string, quizUrl: string, html1: string, html2: string,
                             world: World)
      requires Classify(question) != FileDownload
      ensures ExecutePlan(plan, question, quizUrl, html1, world) == ExecutePlan(plan, question, quizUrl, html2, world)
    {
    }

    /** The data-analysis, visualization and default branches coincide: each
        is `solve_generic` on the unchanged question. */
    lemma GenericBranchesCoincide(plan: Json, question: string, quizUrl: string, html: string, world: World)
      requires Classify(question) == DataAnalysis || Classify(question) == Visualization
            || Classify(question) == GenericSolve
      ensures ExecutePlan(plan, question, quizUrl, html, world) == llm.SolveGeneric(question, world.env)
    {
    }

    /** On the file branch the answer is `None` or the file failure text. */
    lemma FileBranchAnswers(plan: Json, question: string, quizUrl: string, html: string, world: World)
      requires Classify(question) == FileDownload
      ensures ExecutePlan(plan, question, quizUrl, html, world) in {NoAnswer, TextAnswer(FILE_FAILURE)}
    {
      FileDownloadNeverExtracts(question, quizUrl, html, world);
    }

    /** `solve`: raises (here `Failed`) exactly when the rendered markup or
        text is missing or empty; otherwise returns `execute_plan`'s answer
        for the extracted question, which the advisory plan does not affect. */
    function Solve(quizUrl: string, world: World): (r: SolveOutcome)
      reads llm
      ensures r.Failed? <==> !RenderedOk(world.render(quizUrl))
      ensures r.Failed? ==> r.message == RENDER_FAILURE
      ensures r.Answered? ==>
        var page := world.render(quizUrl);
        r.answer == ExecutePlan(JNull, QuestionOf(page.text.value), quizUrl, page.html.value, world)
    {
      var page := world.render(quizUrl);
      if !RenderedOk(page) then Failed(RENDER_FAILURE)
      else
        var html, text := page.html.value, page.text.value;
        var question := QuestionOf(text);
        var submitUrl := ExtractSubmitUrl(html);
        var plan := llm.PlanSolution(question, world.env);
        ExecutePlanIgnoresPlan(plan, JNull, question, quizUrl, quizUrl, html, world);
        Answered(ExecutePlan(plan, question, quizUrl, html, world))
    }
  }
}

=== FILE: server.dfy ===
/** The `/quiz` endpoint: the secret check wrapped around the handler, and the
    per-email session table the handler updates in place. The current time,
    the solving of a quiz URL and the posting of the answer are parameters. */
module Server {
  import opened Wrappers
  import opened JsonValues
  import opened LlmHandler
  import opened QuizSolver

  /** Seconds a session may run before it is reset. */
  const SESSION_LIMIT: real := 180.0

  const INVALID_JSON := "Invalid JSON"
  const INVALID_SECRET := "Invalid secret"
  const MISSING_FIELDS := "Missing email or url"
  const TIMEOUT := "Quiz timeout (3 minutes exceeded)"

  /** One entry of `active_sessions`. */
  datatype Session = Session(startTime: real, attempts: nat)

  /** A response: a status with a JSON body, or the framework's own
      internal-error page for an exception that escapes the handler. */
  datatype Response = Reply(status: int, body: Json) | InternalError

  /** The value `SECRET` compares equal to: its string, or `None` when the
      environment variable is unset. */
  function SecretJson(secret: Option<string>): Json {
    match secret
    case None => JNull
    case Some(s) => JString(s)
  }

  /** `verify_secret`: `None` lets the request through to the handler. An
      empty body is rejected with 400, a body that is not an object makes
      `.get` raise outside any handler, and a mismatched secret gives 403. */
  function VerifySecret(body: Json, secret: Option<string>): (rejection: Option<Response>)
    ensures rejection.None? <==> Truthy(body) && body.JObject? && Get(body, "secret") == SecretJson(secret)
    ensures !Truthy(body) ==> rejection == Some(Reply(400, ErrorBody(INVALID_JSON)))
    ensures Truthy(body) && !body.JObject? ==> rejection == Some(InternalError)
    ensures Truthy(body) && body.JObject? && Get(body, "secret") != SecretJson(secret) ==>
      rejection == Some(Reply(403, ErrorBody(INVALID_SECRET)))
  {
    if !Truthy(body) then Some(Reply(400, ErrorBody(INVALID_JSON)))
    else if !body.JObject? then Some(InternalError)
    else if Get(body, "secret") != SecretJson(secret) then Some(Reply(403, ErrorBody(INVALID_SECRET)))
    else None
  }

  /** The dictionary key an email stands for: `None` when the value is
      unhashable (a list or a dict); `True` and `False` are the keys 1 and 0. */
  function SessionKey(email: Json): (key: Option<Json>)
    ensures key.None? <==> email.JArray? || email.JObject?
    ensures key.Some? ==> IsKey(key.value)
    ensures key.Some? && !email.JBool? ==> key.value == email
  {
    match email
    case JArray(_) => None
    case JObject(_) => None
    case JBool(b) => Some(JNumber(if b then 1 else 0))
    case _ => Some(email)
  }

  /** A value as it is stored as a key: hashable, booleans already folded. */
  predicate IsKey(k: Json) {
    !k.JArray? && !k.JObject? && !k.JBool?
  }

  /** The text of the `TypeError` an unhashable email raises. */
  function UnhashableMessage(email: Json): string {
    if email.JArray? then "unhashable type: 'list'" else "unhashable type: 'dict'"
  }

  /** A response together with the session table after the request. */
  datatype Handled = Handled(response: Response, sessions: map<Json, Session>)

  /** One POST to `/quiz`, from the table before the request to the response
      and the table after it. */
  function HandleQuiz(sessions: map<Json, Session>, secret: Option<string>, body: Json, now: real,
                      solve: Json -> SolveOutcome, post: (string, Payload) -> Call<Json>): (r: Handled)
    ensures sessions.Keys <= r.sessions.Keys
    ensures forall k :: k in r.sessions && k !in sessions ==> IsKey(k)
  {
    match VerifySecret(body, secret)
    case Some(rejection) => Handled(rejection, sessions)
    case None =>
      var email, url := Get(body, "email"), Get(body, "url");
      if !Truthy(email) || !Truthy(url) then Handled(Reply(400, ErrorBody(MISSING_FIELDS)), sessions)
      else match SessionKey(email)
        case None => Handled(Reply(500, ErrorBody(UnhashableMessage(email))), sessions)
        case Some(key) =>
          var current := if key in sessions then sessions[key] else Session(now, 0);
          if now - current.startTime > SESSION_LIMIT then
            Handled(Reply(408, ErrorBody(TIMEOUT)), sessions[key := Session(now, 0)])
          else match solve(url)
            case Failed(message) => Handled(Reply(500, ErrorBody(message)), sessions[key := current])
            case Answered(answer) =>
              Handled(Reply(200, SubmitAnswer(email, secret, url, answer, post)),
                      sessions[key := current.(attempts := current.attempts + 1)])
  }

  /** The server: its configured secret and the table it keeps between
      requests. */
  class QuizServer {
    const secret: Option<string>
    var activeSessions: map<Json, Session>

    /** Every stored key is hashable and boolean keys are folded to 0 and 1. */
    ghost predicate Valid()
      reads this
    {
      forall k :: k in activeSessions ==> IsKey(k)
    }

    constructor (secret: Option<string>)
      ensures Valid()
      ensures this.secret == secret && activeSessions == map[]
    {
      this.secret := secret;
      activeSessions := map[];
    }

    /** `quiz` behind `verify_secret`: the checks, then the session entry is
        created if absent, reset on timeout, and its attempt count raised
        after a solve and a submit that both complete. */
    method Quiz(body: Json, now: real, solve: Json -> SolveOutcome, post: (string, Payload) -> Call<Json>)
      returns (response: Response)
      requires Valid()
      modifies this
      ensures Valid()
      ensures Handled(response, activeSessions) ==
        HandleQuiz(old(activeSessions), secret, body, now, solve, post)
    {
      var rejection := VerifySecret(body, secret);
      if rejection.Some? {
        return rejection.value;
      }
      var email := Get(body, "email");
      var quizUrl := Get(body, "url");
      if !Truthy(email) || !Truthy(quizUrl) {
        return Reply(400, ErrorBody(MISSING_FIELDS));
      }
      var key := SessionKey(email);
      if key.None? {
        return Reply(500, ErrorBody(UnhashableMessage(email)));
      }
      var sessionKey := key.value;
      if sessionKey !in activeSessions {
        activeSessions := activeSessions[sessionKey := Session(now, 0)];
      }
      var elapsed := now - activeSessions[sessionKey].startTime;
      if elapsed > SESSION_LIMIT {
        activeSessions := activeSessions[sessionKey := Session(now, 0)];
        return Reply(408, ErrorBody(TIMEOUT));
      }
      match solve(quizUrl)
      case Failed(message) =>
        response := Reply(500, ErrorBody(message));
      case Answered(answer) =>
        var result := SubmitAnswer(email, secret, quizUrl, answer, post);
        var session := activeSessions[sessionKey];
        activeSessions := activeSessions[sessionKey := session.(attempts := session.attempts + 1)];
        response := Reply(200, result);
    }
  }

  // ---------------------------------------------------------------------
  // Properties of one request

  /** The empty-body and secret checks come first: they answer 400 or 403
      (or the internal error for a non-object body) whatever the email, url,
      time or solver, and leave the table alone. */
  lemma GateBeforeSessions(sessions: map<Json, Session>, secret: Option<string>, body: Json, now: real,
                           solve: Json -> SolveOutcome, post: (string, Payload) -> Call<Json>)
    requires !(Truthy(body) && body.JObject? && Get(body, "secret") == SecretJson(secret))
    ensures var h := HandleQuiz(sessions, secret, body, now, solve, post);
      && h.sessions == sessions
      && (!Truthy(body) ==> h.response == Reply(400, ErrorBody(INVALID_JSON)))
      && (Truthy(body) && body.JObject? ==> h.response == Reply(403, ErrorBody(INVALID_SECRET)))
  {
  }

  /** With `SECRET_STRING` unset, a non-empty body without a "secret" field is
      let through: the missing field is `None`, and `None == None`. */
  lemma UnsetSecretAdmitsMissingField(body: Json)
    requires body.JObject? && body.fields != map[] && "secret" !in body.fields
    ensures VerifySecret(body, None) == None
  {
  }

  /** A missing or falsy email or url gives 400 and leaves the table alone. */
  lemma MissingFieldsRejected(sessions: map<Json, Session>, secret: Option<string>, body: Json, now: real,
                              solve: Json -> SolveOutcome, post: (string, Payload) -> Call<Json>)
    requires VerifySecret(body, secret) == None
    requires !Truthy(Get(body, "email")) || !Truthy(Get(body, "url"))
    ensures HandleQuiz(sessions, secret, body, now, solve, post) ==
      Handled(Reply(400, ErrorBody(MISSING_FIELDS)), sessions)
  {
  }

  /** The request reached the session table: it passed the gate and named a
      hashable email and a url, both truthy. */
  predicate Admitted(secret: Option<string>, body: Json) {
    && VerifySecret(body, secret) == None
    && Truthy(Get(body, "email")) && Truthy(Get(body, "url"))
    && SessionKey(Get(body, "email")).Some?
  }

  /** The key of an admitted request. */
  function KeyOf(secret: Option<string>, body: Json): (key: Json)
    requires Admitted(secret, body)
    ensures IsKey(key)
  {
    SessionKey(Get(body, "email")).value
  }

  /** The first request for an email opens its session at `now`; the entry
      then holds one attempt after a successful solve and none otherwise. */
  lemma FirstRequestOpensSession(sessions: map<Json, Session>, secret: Option<string>, body: Json, now: real,
                                 solve: Json -> SolveOutcome, post: (string, Payload) -> Call<Json>)
    requires Admitted(secret, body) && KeyOf(secret, body) !in sessions
    ensures var h := HandleQuiz(sessions, secret, body, now, solve, post);
      && KeyOf(secret, body) in h.sessions
      && h.sessions[KeyOf(secret, body)].startTime == now
      && h.sessions[KeyOf(secret, body)].attempts == (if solve(Get(body, "url")).Answered? then 1 else 0)
      && (h.response.Reply? && h.response.status == 200 <==> solve(Get(body, "url")).Answered?)
  {
  }

  /** More than 180 seconds after the session started, the session is reset
      to start now with no attempts and 408 is returned; the solver plays no
      part. */
  lemma TimeoutResets(sessions: map<Json, Session>, secret: Option<string>, body: Json, now: real,
                      solve1: Json -> SolveOutcome, solve2: Json -> SolveOutcome,
                      post: (string, Payload) -> Call<Json>)
    requires Admitted(secret, body)
    requires KeyOf(secret, body) in sessions
    requires now - sessions[KeyOf(secret, body)].startTime > SESSION_LIMIT
    ensures HandleQuiz(sessions, secret, body, now, solve1, post) ==
      Handled(Reply(408, ErrorBody(TIMEOUT)), sessions[KeyOf(secret, body) := Session(now, 0)])
    ensures HandleQuiz(sessions, secret, body, now, solve1, post) ==
      HandleQuiz(sessions, secret, body, now, solve2, post)
  {
  }

  /** The limit is strict: a session exactly 180 seconds old still solves. */
  lemma ExactLimitProceeds(sessions: map<Json, Session>, secret: Option<string>, body: Json, now: real,
                           solve: Json -> SolveOutcome, post: (string, Payload) -> Call<Json>)
    requires Admitted(secret, body)
    requires KeyOf(secret, body) in sessions
    requires now - sessions[KeyOf(secret, body)].startTime == SESSION_LIMIT
    ensures HandleQuiz(sessions, secret, body, now, solve, post).response != Reply(408, ErrorBody(TIMEOUT))
  {
  }

  /** Within the limit, the attempt count of an existing session rises by
      exactly one when the solve completes (status 200 with the submit
      result), and stays put when it fails (status 500 with its message);
      the start time never changes. */
  lemma AttemptsCountSuccesses(sessions: map<Json, Session>, secret: Option<string>, body: Json, now: real,
                               solve: Json -> SolveOutcome, post: (string, Payload) -> Call<Json>)
    requires Admitted(secret, body)
    requires KeyOf(secret, body) in sessions
    requires now - sessions[KeyOf(secret, body)].startTime <= SESSION_LIMIT
    ensures var key, h := KeyOf(secret, body), HandleQuiz(sessions, secret, body, now, solve, post);
      && key in h.sessions
      && h.sessions[key].startTime == sessions[key].startTime
      && match solve(Get(body, "url"))
         case Failed(message) =>
           h.response == Reply(500, ErrorBody(message)) && h.sessions[key] == sessions[key]
         case Answered(answer) =>
           && h.response == Reply(200, SubmitAnswer(Get(body, "email"), secret, Get(body, "url"), answer, post))
           && h.sessions[key].attempts == sessions[key].attempts + 1
  {
  }

  /** Only the requesting email's entry can change: every other entry, and the
      set of other keys, stays as it was. */
  lemma OtherSessionsUntouched(sessions: map<Json, Session>, secret: Option<string>, body: Json, now: real,
                               solve: Json -> SolveOutcome, post: (string, Payload) -> Call<Json>, other: Json)
    requires !Admitted(secret, body) || other != KeyOf(secret, body)
    ensures var h := HandleQuiz(sessions, secret, body, now, solve, post);
      && (other in h.sessions <==> other in sessions)
      && (other in sessions ==> h.sessions[other] == sessions[other])
  {
  }

  /** The session is keyed by the email alone: two requests that differ only
      in their url touch the same entry in the same way, up to what the
      solver says about each url. */
  lemma UrlDoesNotKeySession(sessions: map<Json, Session>, secret: Option<string>, body1: Json, body2: Json,
                             now: real, solve: Json -> SolveOutcome, post: (string, Payload) -> Call<Json>)
    requires Admitted(secret, body1) && Admitted(secret, body2)
    requires Get(body1, "email") == Get(body2, "email")
    requires solve(Get(body1, "url")).Answered? == solve(Get(body2, "url")).Answered?
    ensures HandleQuiz(sessions, secret, body1, now, solve, post).sessions ==
      HandleQuiz(sessions, secret, body2, now, solve, post).sessions
  {
  }

  /** `True` and `1` name the same session, as they are the same dict key. */
  lemma BooleanEmailSharesKey()
    ensures SessionKey(JBool(true)) == SessionKey(JNumber(1))
    ensures SessionKey(JBool(false)) == SessionKey(JNumber(0))
  {
  }
}

=== FILE: text.dfy ===
/** The Python string built-ins the quiz solver relies on: `str.isspace`,
    `str.strip`, `str.lower`, `str.split("\n")`, `in`, `startswith`,
    `endswith`, slicing, `int(s)` and `str(n)`. */
module Text {
  import opened Wrappers

  /** The characters `str.isspace()` accepts; `str.strip()` removes exactly
      these, and the regular-expression class `\s` matches exactly these. */
  predicate IsSpace(c: char) {
    || c == ' '
    || '\t' <= c <= '\r'
    || '\U{1C}' <= c <= '\U{1F}'
    || c == '\U{85}' || c == '\U{A0}' || c == '\U{1680}'
    || '\U{2000}' <= c <= '\U{200A}'
    || c == '\U{2028}' || c == '\U{2029}' || c == '\U{202F}'
    || c == '\U{205F}' || c == '\U{3000}'
  }

  /** `s.lstrip()`: drops the leading whitespace and nothing else. */
  function StripLeft(s: string): (r: string)
    ensures |r| <= |s| && r == s[|s| - |r|..]
    ensures forall i :: 0 <= i < |s| - |r| ==> IsSpace(s[i])
    ensures r != [] ==> !IsSpace(r[0])
  {
    if s != [] && IsSpace(s[0]) then StripLeft(s[1..]) else s
  }

  /** `s.rstrip()`: drops the trailing whitespace and nothing else. */
  function StripRight(s: string): (r: string)
    ensures |r| <= |s| && r == s[..|r|]
    ensures forall i :: |r| <= i < |s| ==> IsSpace(s[i])
    ensures r != [] ==> !IsSpace(r[|r| - 1])
  {
    if s != [] && IsSpace(s[|s| - 1]) then StripRight(s[..|s| - 1]) else s
  }

  /** `s.strip()`: the result neither starts nor ends with whitespace, and a
      string that already has no whitespace at either end is left as it is. */
  function Strip(s: string): (r: string)
    ensures |r| <= |s|
    ensures r != [] ==> !IsSpace(r[0]) && !IsSpace(r[|r| - 1])
    ensures s != [] && !IsSpace(s[0]) && !IsSpace(s[|s| - 1]) ==> r == s
  {
    StripRight(StripLeft(s))
  }

  /** Everything in `s` before `i` and from `j` on is whitespace. */
  predicate SpaceOutside(s: string, i: nat, j: nat)
    requires i <= j <= |s|
  {
    && (forall k :: 0 <= k < i ==> IsSpace(s[k]))
    && (forall k :: j <= k < |s| ==> IsSpace(s[k]))
  }

  /** `s.strip()` removes the leading and trailing whitespace and nothing
      else: the result is a slice of `s` with only whitespace outside it. */
  lemma StripIsInfix(s: string)
    ensures exists i, j :: 0 <= i <= j <= |s| && Strip(s) == s[i..j] && SpaceOutside(s, i, j)
  {
    var left := StripLeft(s);
    var r := StripRight(left);
    var i := |s| - |left|;
    var j := i + |r|;
    assert r == left[..|r|];
    assert left == s[i..];
    assert r == s[i..j];
    forall k | j <= k < |s| ensures IsSpace(s[k]) {
      assert s[k] == left[k - i];
    }
    assert SpaceOutside(s, i, j);
  }

  /** On ASCII text the whitespace of `str.isspace` and of the regular
      expression class `\s` is space, tab through carriage return, and the
      four separators U+001C to U+001F. */
  lemma AsciiSpace(c: char)
    requires c < '\U{80}'
    ensures IsSpace(c) <==> c in " \t\n\U{0B}\U{0C}\r\U{1C}\U{1D}\U{1E}\U{1F}"
  {
  }

  /** `c.lower()` on one character (ASCII letters only, see README). */
  function LowerChar(c: char): char {
    if 'A' <= c <= 'Z' then (c as int + 32) as char else c
  }

  /** `s.lower()`: the same length, each character lowered on its own. */
  function Lower(s: string): (r: string)
    ensures |r| == |s|
    ensures forall i :: 0 <= i < |s| ==> r[i] == LowerChar(s[i])
  {
    if s == [] then [] else [LowerChar(s[0])] + Lower(s[1..])
  }

  predicate StartsWith(s: string, prefix: string) {
    |prefix| <= |s| && s[..|prefix|] == prefix
  }

  predicate EndsWith(s: string, suffix: string) {
    |suffix| <= |s| && s[|s| - |suffix|..] == suffix
  }

  /** `s[i:].startswith(p)` for an index inside `s`. */
  predicate StartsAt(s: string, p: string, i: nat) {
    i + |p| <= |s| && s[i..i + |p|] == p
  }

  /** Python's `sub in s`: `sub` occurs somewhere in `s`. */
  predicate Contains(s: string, sub: string)
    decreases |s|
  {
    StartsWith(s, sub) || (s != [] && Contains(s[1..], sub))
  }

  /** `sub in s` holds exactly when `sub` occurs at some index of `s`. */
  lemma {:induction false} ContainsIffOccurs(s: string, sub: string)
    decreases |s|
    ensures Contains(s, sub) <==> exists i :: 0 <= i <= |s| && StartsAt(s, sub, i)
  {
    if StartsWith(s, sub) {
      assert StartsAt(s, sub, 0);
    } else if s != [] {
      ContainsIffOccurs(s[1..], sub);
      if exists i :: 0 <= i <= |s| && StartsAt(s, sub, i) {
        var i :| 0 <= i <= |s| && StartsAt(s, sub, i);
        assert i != 0;
        assert s[1..][i - 1..i - 1 + |sub|] == s[i..i + |sub|];
        assert StartsAt(s[1..], sub, i - 1);
      }
      if Contains(s[1..], sub) {
        var i :| 0 <= i <= |s[1..]| && StartsAt(s[1..], sub, i);
        assert s[i + 1..i + 1 + |sub|] == s[1..][i..i + |sub|];
        assert StartsAt(s, sub, i + 1);
      }
    }
  }

  /** A string shorter than `sub` cannot contain it. */
  lemma {:induction false} ShortNotContains(s: string, sub: string)
    requires |s| < |sub|
    ensures !Contains(s, sub)
  {
    if s != [] {
      ShortNotContains(s[1..], sub);
    }
  }

  /** If every window of `s` as wide as `sub` covers position `j`, and the
      character there occurs nowhere in `sub`, then `sub` is not in `s`. */
  lemma {:induction false} BlockedNotContains(s: string, sub: string, j: nat)
    requires j < |s| && |s| - |sub| <= j < |sub|
    requires s[j] !in sub
    ensures !Contains(s, sub)
  {
    if |sub| <= |s| {
      assert s[..|sub|][j] == s[j];
    }
    if j == 0 {
      ShortNotContains(s[1..], sub);
    } else {
      BlockedNotContains(s[1..], sub, j - 1);
    }
  }

  /** `s[:n]`: the first `n` characters, or all of `s` when it is shorter. */
  function Prefix(s: string, n: nat): (r: string)
    ensures |r| == if |s| < n then |s| else n
    ensures r == s[..|r|]
  {
    if |s| < n then s else s[..n]
  }

  /** `s.split("\n")`: the pieces between newline characters; never empty. */
  function SplitLines(s: string): (lines: seq<string>)
    ensures |lines| >= 1
    ensures forall i :: 0 <= i < |lines| ==> '\n' !in lines[i]
  {
    if s == [] then [""]
    else
      var rest := SplitLines(s[1..]);
      if s[0] == '\n' then [""] + rest
      else [[s[0]] + rest[0]] + rest[1..]
  }

  /** `"\n".join(lines)`. */
  function JoinLines(lines: seq<string>): string {
    if lines == [] then ""
    else if |lines| == 1 then lines[0]
    else lines[0] + "\n" + JoinLines(lines[1..])
  }

  /** Splitting at newlines loses nothing: joining the pieces gives `s` back. */
  lemma {:induction false} JoinSplitLines(s: string)
    ensures JoinLines(SplitLines(s)) == s
  {
    if s != [] {
      var rest := SplitLines(s[1..]);
      JoinSplitLines(s[1..]);
      if s[0] == '\n' {
        assert ([""] + rest)[1..] == rest;
      } else {
        var lines := [[s[0]] + rest[0]] + rest[1..];
        if |rest| == 1 {
          assert lines == [[s[0]] + rest[0]];
        } else {
          assert lines[1..] == rest[1..];
          assert JoinLines(rest) == rest[0] + "\n" + JoinLines(rest[1..]);
        }
      }
    }
  }

  /** Pieces without newlines, joined and split again, come back unchanged. */
  lemma {:induction false} SplitJoinLines(lines: seq<string>)
    requires |lines| >= 1
    requires forall i :: 0 <= i < |lines| ==> '\n' !in lines[i]
    ensures SplitLines(JoinLines(lines)) == lines
  {
    if |lines| == 1 {
      SplitLineNoNewline(lines[0], []);
    } else {
      var tail := JoinLines(lines[1..]);
      SplitJoinLines(lines[1..]);
      SplitLineNoNewline(lines[0], tail);
    }
  }

  /** Splitting `head + "\n" + tail` (or `head` alone when `tail` is absent)
      where `head` holds no newline puts `head` first. */
  lemma {:induction false} SplitLineNoNewline(head: string, tail: string)
    requires '\n' !in head
    ensures SplitLines(head) == [head]
    ensures SplitLines(head + "\n" + tail) == [head] + SplitLines(tail)
  {
    if head == [] {
      assert ("" + "\n" + tail)[1..] == tail;
    } else {
      SplitLineNoNewline(head[1..], tail);
      assert (head + "\n" + tail)[1..] == head[1..] + "\n" + tail;
      assert [head[0]] + head[1..] == head;
    }
  }

  // ---------------------------------------------------------------------
  // int(s) and str(n) for base-10 text

  predicate IsDigit(c: char) {
    '0' <= c <= '9'
  }

  function DigitValue(c: char): nat
    requires IsDigit(c)
  {
    c as int - '0' as int
  }

  function DigitChar(d: nat): (c: char)
    requires d < 10
    ensures IsDigit(c) && DigitValue(c) == d
  {
    ('0' as int + d) as char
  }

  /** The digit part `int()` accepts: digits, with single underscores allowed
      between two digits. */
  predicate IsIntBody(s: string) {
    && |s| > 0
    && IsDigit(s[0]) && IsDigit(s[|s| - 1])
    && (forall i :: 0 <= i < |s| ==> IsDigit(s[i]) || s[i] == '_')
    && (forall i :: 0 <= i < |s| - 1 ==> s[i] == '_' ==> s[i + 1] != '_')
  }

  /** An optional sign followed by an integer body. */
  predicate IsIntLiteral(t: string) {
    IsIntBody(t) || (t != [] && (t[0] == '+' || t[0] == '-') && IsIntBody(t[1..]))
  }

  /** The value of a run of digits and underscores; underscores are skipped. */
  function BodyValue(s: string): nat
    requires forall i :: 0 <= i < |s| ==> IsDigit(s[i]) || s[i] == '_'
  {
    if s == [] then 0
    else if s[|s| - 1] == '_' then BodyValue(s[..|s| - 1])
    else 10 * BodyValue(s[..|s| - 1]) + DigitValue(s[|s| - 1])
  }

  /** `int(s)` for a string argument: `None` stands for the `ValueError`.
      Surrounding `str.isspace` whitespace is ignored; for pure-ASCII text
      `int()` itself skips only space and tab through carriage return (see
      README). */
  function ParseInt(s: string): (r: Option<int>)
    ensures r.Some? <==> IsIntLiteral(Strip(s))
    ensures r.Some? && r.value < 0 ==> Strip(s)[0] == '-'
  {
    var t := Strip(s);
    if IsIntBody(t) then Some(BodyValue(t))
    else if t != [] && (t[0] == '+' || t[0] == '-') && IsIntBody(t[1..]) then
      var magnitude: int := BodyValue(t[1..]);
      Some(if t[0] == '-' then -magnitude else magnitude)
    else None
  }

  /** `str(n)` for a natural number: digits only, no leading zero. */
  function DigitsOf(n: nat): (r: string)
    ensures r != []
    ensures forall i :: 0 <= i < |r| ==> IsDigit(r[i])
    ensures r[0] == '0' ==> n == 0
  {
    if n < 10 then [DigitChar(n)] else DigitsOf(n / 10) + [DigitChar(n % 10)]
  }

  /** `str(n)` for any integer: a minus sign exactly for negative numbers,
      then digits. */
  function DecimalString(n: int): (r: string)
    ensures r != []
    ensures r[0] == '-' <==> n < 0
    ensures forall i :: (if n < 0 then 1 else 0) <= i < |r| ==> IsDigit(r[i])
  {
    if n < 0 then "-" + DigitsOf(-n) else DigitsOf(n)
  }

  lemma {:induction false} DigitsOfValue(n: nat)
    ensures IsIntBody(DigitsOf(n))
    ensures BodyValue(DigitsOf(n)) == n
  {
    var s := DigitsOf(n);
    if n >= 10 {
      DigitsOfValue(n / 10);
      assert s[..|s| - 1] == DigitsOf(n / 10);
    }
  }

  /** `str(n)` has no whitespace at either end, so stripping keeps it. */
  lemma DecimalStringStripped(n: int)
    ensures Strip(DecimalString(n)) == DecimalString(n)
  {
    var s := DecimalString(n);
    if n < 0 {
      assert s[0] == '-';
    }
    assert !IsSpace(s[0]) && !IsSpace(s[|s| - 1]);
  }

  /** `int(str(n)) == n`: the decimal rendering of an integer parses back to it. */
  lemma DecimalRoundTrip(n: int)
    ensures ParseInt(DecimalString(n)) == Some(n)
  {
    var s := DecimalString(n);
    DecimalStringStripped(n);
    if n < 0 {
      var digits := DigitsOf(-n);
      DigitsOfValue(-n);
      assert s[1..] == digits;
      assert !IsDigit(s[0]);
    } else {
      DigitsOfValue(n);
    }
  }
}

=== FILE: wrappers.dfy ===
/** Small failure-carrying datatypes shared by the model. */
module Wrappers {

  /** Python's `None` versus a present value. */
  datatype Option<+T> = None | Some(value: T)

  /** The outcome of a call into code outside the model: it either returns a
      value or raises an exception whose `str(e)` is `message`. */
  datatype Call<+T> = Returned(value: T) | Raised(message: string)
}
